=== FILE: README.md ===
# In-browser logger and polling scheduler, modelled in Dafny

This project models the three pieces of logic in the repository that are more than
browser plumbing:

- **The logger** (`src/logger/Logger.ts`). A console publisher keeps a prefix and the
  id of the flow group it is showing. It formats and routes each line by level and
  keeps a bounded buffer of log records in session storage. The `Logger` singleton owns
  the active publisher and the current flow identity, and it logs one
  "Logger initialzed" record when it is first created. In the model the process is a
  `World`: the static instance slot plus the stored buffer. Every operation is a pure
  function from a world to the new world and the events it produced: console lines by
  channel, `groupCollapsed` / `groupEnd`, deliveries to a caller-supplied publisher,
  and downloads. Throwing calls return `Threw`.
- **The polling scheduler** (`AsyncPolling`, `src/utils/coreUtils.ts`). It is modelled
  as a state machine with five inputs: `start`, `stop`, a timer firing, a visibility
  change and the settlement of a `poll()` promise. Its two outputs are a call of `poll`
  and a call of `onChange`. The main result is overlap suppression: from a fresh
  scheduler, for every input sequence, at most one poll is in flight, and the
  `isPreviousCallActive` flag says exactly whether there is one.
- **The keyed storage adapter** (`StorageAdapter`, `src/utils/date-utils.ts`). There is
  one object blob per backing store. `get` and `set` are a lookup in and an update of a
  `map<string, V>`, and an absent blob behaves as `{}`.

The modules are `Wrappers` (`Option`), `Json`, `LogBuffer`, `Publishers`, `Logger`,
`Polling` and `Storage`:

- `Json` holds the context value type, JavaScript truthiness, `JSON.stringify`, and the
  decimal `toString` of timestamps with a parser that inverts it.
- `LogBuffer` is the bounded buffer.
- `Publishers` holds the console publisher and caller-supplied publishers.

Behaviour of the code worth knowing:

- The buffer settles at `MaxLogs - 1` = 999 records, not 1000. Eviction fires when the
  length after the push is `>= maxLogs`.
- A stored context is `JSON.stringify(context || {})`, so every falsy context is stored
  as `"{}"`.
- `BasePublisher.publish` declares its parameters as `(level, message, flowId, context)`
  (`src/logger/Logger.ts:3`). The console publisher and `Logger.log` use
  `(level, message, context, flowId)`. The model uses the concrete order everywhere. A
  caller-supplied publisher written against the declared order would receive the
  context in its `flowId` parameter.
- `downloadLogs` on a buffer that was never written reads `.length` of `null` and
  throws. The static `Logger.downloadLogs` throws before the first `getInstance`. Both
  are `Threw` outcomes.
- After `stop`, a poll already in flight still settles, clears the flag and, if it
  resolves, still calls `onChange`.
- A second `start` arms a second interval and overwrites `timer`. A later `stop` clears
  only the second interval, so the first one keeps polling.
- The visibility listener is registered unbound, so in the browser `this` is the
  document and `paused` never changes (see Findings). The scheduler model uses the
  intended listener, which sets `paused` to whether the page is hidden.

## Model

| member | source | states |
|---|---|---|
| `LogBuffer.Current` | src/logger/Logger.ts:78 | a never-written buffer reads as the empty sequence, a written one as its contents |
| `LogBuffer.Append` | src/logger/Logger.ts:78-86 | the new record is last; at most one record is evicted; a buffer below `maxLogs` stays below it (at most 999); eviction happens exactly when the pushed length reaches `maxLogs`; a missing buffer yields a one-record sequence |
| `LogBuffer.AppendEvictsOldest` | src/logger/Logger.ts:79-85 | the records before the new one are the old buffer, minus exactly its oldest record when the bound was reached, in unchanged order |
| `LogBuffer.AppendAllIsWindow` | src/logger/Logger.ts:78-86 | FIFO retention: any run of publishes from a buffer below the bound leaves exactly the last 999 records of the whole history, in call order |
| `LogBuffer.LongRunKeepsLastRecords` | src/logger/Logger.ts:78-86 | more than `maxLogs` publishes into an empty buffer leave the most recent 999 records |
| `LogBuffer.LongRunSize` | src/logger/Logger.ts:80-85 | after more than `maxLogs` publishes the buffer holds exactly `maxLogs - 1` records |
| `Publishers.FlowTransition` | src/logger/Logger.ts:68-74 | a falsy flow id or a repeat of the current one changes nothing; any other truthy id becomes current and opens its group, preceded by `groupEnd` exactly when a group was already open; an open group never closes without a new one |
| `Publishers.Route` | src/logger/Logger.ts:27-41 | `INFO`, `WARN` and `ERROR` go to `console.info`, `console.warn` and `console.error`; every other level goes to `console.log`; the line is passed unchanged |
| `Publishers.FormatCarriesPrefix` | src/logger/Logger.ts:75 | a console line starts with its prefix in brackets, which can be read back from the line |
| `Publishers.FormatContextSuffix` | src/logger/Logger.ts:75-76 | the line is `[prefix] [ts] LEVEL: message ` ending in a space, followed by the context's JSON exactly when the context is truthy |
| `Publishers.StoredContext` | src/logger/Logger.ts:79 | a falsy context is stored as `{}`, a truthy one as its JSON |
| `Publishers.ConsolePublish` | src/logger/Logger.ts:67-87 | the prefix is unchanged; flow-group events come first, then one line routed by level and formatted with the current prefix; the buffer becomes the old buffer with the new record (stringified context) pushed last and, exactly when the bound is reached, its oldest record dropped; it stays below the bound |
| `Publishers.Publish` | src/logger/Logger.ts:1-6 | a caller-supplied publisher receives the call once and the stored buffer is untouched; the console publisher appends the record and emits the routed line; neither changes its prefix |
| `Publishers.SetPrefix` | src/logger/Logger.ts:49-51 | the prefix is replaced outright; the flow group and the kind of publisher are kept |
| `Publishers.DownloadLogs` | src/logger/Logger.ts:52-65 | the console publisher throws on a never-written buffer, emits the "no logs" error and offers no file on an empty one, and offers the whole buffer (default name `logs.json`) exactly when it is non-empty; other publishers do nothing |
| `Logger.Log` | src/logger/Logger.ts:125-127 | the call reaches the active publisher with the logger's current flow identity; the flow identity is unchanged; a caller-supplied publisher gets exactly one delivery and the buffer is untouched |
| `Logger.StartFlow` | src/logger/Logger.ts:118-120 | the flow identity becomes `id + ' ' + now` (always truthy); publisher and buffer are unchanged |
| `Logger.AddPublisher` | src/logger/Logger.ts:121-123 | the publisher is replaced unconditionally; flow identity and buffer are unchanged |
| `Logger.GetInstance` | src/logger/Logger.ts:100-106 | an existing instance is returned with nothing changed; the first call installs the default console publisher and logs exactly one "Logger initialzed" record and one console line |
| `Logger.SetPublisherPrefix` | src/logger/Logger.ts:107-114 | on a fresh world: the init line then the notice line, both under the default prefix, with no flow id; on an existing console publisher: the notice's flow-group events, then its line under the old prefix, with `currentFlowId` moved as `log` would; on a console publisher the notice record is appended to the buffer after any init record; a caller-supplied publisher receives the notice and keeps its name; the publisher then carries the new prefix |
| `Logger.DownloadLogs` | src/logger/Logger.ts:115-117 | throws before the first `getInstance`; otherwise the active publisher decides, and a file is offered exactly when the console publisher has a non-empty buffer |
| `Logger.GetLoggerInstance` | src/logger/LoggerUtils.ts:6-11 | a truthy prefix goes through `setPublisherPrefix` (notice line and record included) and the trailing `getInstance` adds nothing; otherwise this is `getInstance` |
| `Logger.GetInstanceIdempotent` | src/logger/Logger.ts:100-106 | a second `getInstance` changes nothing and logs nothing |
| `Logger.LogsCarryFlow` | src/logger/Logger.ts:118-127 | every `log` after a `startFlow` keeps that flow identity; a caller-supplied publisher receives each call once, in order, tagged with it |
| `Logger.StartFlowThenLog` | src/logger/Logger.ts:118-127 | the `log` after `startFlow(id)` forwards exactly `id + ' ' + now`, and the console publisher groups under it |
| `Logger.AddPublisherReroutes` | src/logger/Logger.ts:121-127 | after `addPublisher`, a `log` reaches only the new publisher; the old console publisher writes neither lines nor records |
| `Logger.PrefixNoticeTaggedWithOldPrefix` | src/logger/Logger.ts:107-114 | the prefix-change notice is tagged with the old prefix, or with the default prefix when no instance existed yet |
| `Logger.LaterLinesTaggedWithNewPrefix` | src/logger/Logger.ts:107-114 | the line of the next `log` after `setPublisherPrefix` is tagged with the new prefix, including on first use before any `getInstance` (`Logger.Log` keeps the prefix for the calls after it) |
| `Logger.RunLogsAppendsAll` | src/logger/Logger.ts:77-86 | a run of `log` calls on the console publisher leaves the buffer that publishing their records one by one leaves |
| `Logger.LogRunKeepsWindow` | src/logger/Logger.ts:77-86 | from a buffer below the bound, a run of `log` calls keeps the last 999 records of the whole history, in call order |
| `Logger.FlowTokenInjective` | src/logger/Logger.ts:119 | a flow identity determines the id and the start time it was made from |
| `Logger.NewFlowOpensGroup` | src/logger/Logger.ts:68-74 | the first `log` under a new flow identity opens its group, closing the open one exactly when there was one |
| `Logger.SameFlowAddsNoGroup` | src/logger/Logger.ts:68-74 | a `log` under the flow already grouped emits exactly one console line and leaves the group as it is |
| `Logger.FlowGroupingScenario` | src/logger/Logger.ts:68-74 | `startFlow(a)`, two logs, `startFlow(b)`, one log: the first log opens group a, the second adds no group event, the third closes it and opens a distinct group b |
| `Json.IntToStringRoundTrip` | src/logger/Logger.ts:119 | the decimal text of a timestamp parses back to the timestamp |
| `Polling.Start` | src/utils/coreUtils.ts:7-17 | registers the listener and arms a fresh interval whose handle becomes `timer`; pause and in-flight state are kept |
| `Polling.Stop` | src/utils/coreUtils.ts:18-23 | removes the listener and clears only the interval in `timer`, if any; `paused`, the in-flight flag and outstanding polls are untouched |
| `Polling.Tick` | src/utils/coreUtils.ts:9-13 | a firing calls `poll` exactly when its interval is live and neither a paused page (with the flag `true`) nor a poll in flight suppresses it; it then sets the in-flight flag and changes nothing else; a skipped tick changes nothing |
| `Polling.Settle` | src/utils/coreUtils.ts:14-15 | settlement clears the in-flight flag on success and on failure; `onChange` gets the payload only on success |
| `Polling.VisibilityChangeIntended` | src/utils/coreUtils.ts:24-26 | while the listener is registered, `paused` becomes whether the page is hidden; nothing else changes, in particular not a poll in flight |
| `Polling.VisibilityChangeAsWritten` | src/utils/coreUtils.ts:8 | the unbound listener leaves the scheduler's `paused` unchanged |
| `Polling.Run` | src/utils/coreUtils.ts:9-26 | every sequence of inputs preserves the invariant: at most one outstanding poll, and the in-flight flag is set exactly when there is one |
| `Polling.AtMostOnePollInFlight` | src/utils/coreUtils.ts:10-14 | from a fresh scheduler, whatever the inputs, at most one poll is outstanding |
| `Polling.SkippedTicksDoNothing` | src/utils/coreUtils.ts:10-12 | while ticks are suppressed, any number of them changes nothing and calls nothing |
| `Polling.HiddenPageSuspendsPolling` | src/utils/coreUtils.ts:10-12 | with the flag `true`, a hidden page then any number of ticks calls `poll` zero times, and the tick after the page is visible again calls it exactly once |
| `Polling.PausedPollsWithoutFlag` | src/utils/coreUtils.ts:10 | if the flag is not exactly `true`, a paused scheduler still polls |
| `Polling.OverlapSuppressed` | src/utils/coreUtils.ts:10-14 | a tick during a poll changes nothing; after the poll settles the next tick polls again |
| `Polling.StopLetsInFlightPollDeliver` | src/utils/coreUtils.ts:14-23 | `stop` does not cancel a poll in flight: it still clears the flag and still reaches `onChange` |
| `Polling.StartStopSilences` | src/utils/coreUtils.ts:18-23 | after `start` then `stop` no interval is live and no tick polls |
| `Polling.DoubleStartLeaksInterval` | src/utils/coreUtils.ts:9 | after two `start` calls and one `stop`, the first interval is still live and still polls, under every configuration |
| `Polling.UnboundListenerNeverPauses` | src/utils/coreUtils.ts:24-26 | as written, a hidden-page event does not stop the next tick from polling, whereas the intended listener suppresses it |
| `Storage.Get` | src/utils/date-utils.ts:10-14 | `get` yields the stored member for the key, and undefined when the key or the whole blob is absent |
| `Storage.Set` | src/utils/date-utils.ts:20-26 | `set` returns the value; the key then reads as the value; every other key reads as before; a first `set` creates a blob holding only that key |
| `Storage.SetOn` | src/utils/date-utils.ts:29-31 | a `set` through one exported adapter changes only that adapter's blob |
| `Storage.ReadOverWrite` | src/utils/date-utils.ts:20-26 | `get(k)` after `set(k, v)` is `v`; other keys are unaffected |
| `Storage.LastWriteWins` | src/utils/date-utils.ts:23-24 | of two writes to one key the last wins, and repeating a write has the effect of a single one |
| `Storage.BackendsIndependent` | src/utils/date-utils.ts:29-31 | a `set` on `LocalStorage` never changes a `get` on `SessionStorage`, and vice versa |

## Left out

- Console calls, `console.group*`, and the Blob / object-URL / anchor mechanics of the
  download are recorded as events, not performed. The download event carries the
  records, not their pretty-printed JSON text.
- `window.localStorage` / `sessionStorage` and `JSON.parse` are left out. Stored blobs
  are modelled by their parsed values, so the serialisation is assumed to round-trip.
  It does for log records (numbers and strings). A value `JSON.stringify` drops or
  changes (`undefined`, functions, `NaN`) is outside the model. A stored blob that is
  not valid JSON would make the code throw; no recovery from it is modelled.
- Exceptions from the platform are not modelled: `ConsolePublish`, `Publish`, `Log` and
  `Set` always complete. A `setItem` that throws (a full quota, say) in `setLogs` or in
  the adapter's `set` would leave the console line emitted, store nothing and propagate
  to the caller. A context `JSON.stringify` rejects (cyclic, or holding a BigInt) would
  throw before the console line. Neither kind of context can be built from `Json.Value`.
- `Storage.Get`: inherited object members (`toString`, `__proto__`, …) that
  `contextObj[key]` would also find are not modelled. Apart from the key `__proto__`
  (next line), only keys written by `set` are present.
- `Storage.Set` and `Storage.ReadOverWrite` state read-over-write for every key. For the
  key `"__proto__"` the code's `sessionContext[key] = value` replaces the object's
  prototype instead of adding a member, `JSON.stringify` drops it, and a later
  `get("__proto__")` returns `Object.prototype`. That key is not modelled.
- The namespaced storage key comes from `v5(...)`, an external UUID function, and is
  treated as an opaque constant. The adapter blobs and the log buffer live under
  different keys, so they are modelled as separate state.
- `Date.now()` is a parameter `now`. `Logger.Log`, `Logger.GetInstance` and
  `Logger.SetPublisherPrefix` use one reading for every clock read inside one call. The
  code reads the clock separately for the console line and for the stored record, and
  those readings can differ by a millisecond.
- `Json.Stringify`: context numbers are unbounded integers printed with every digit.
  JavaScript numbers are doubles: integers beyond 2^53 are not held exactly, and
  `JSON.stringify` prints magnitudes of 10^21 and more in exponent form (`1e+21`).
  Console lines and stored contexts holding such numbers are not modelled faithfully.
- Context values use integers as their only numbers. `JSON.stringify` escapes are
  modelled for quotes, backslashes and control characters. Lone surrogates are not
  modelled. Object members are an ordered list of pairs.
- A caller-supplied publisher is arbitrary code. It is modelled as a named sink that
  records each `publish` it receives, stores its prefix on `setPrefix`, and keeps the
  base no-op `downloadLogs`.
- `info`, `warn` and `error` only fix the level of `log`, so they carry no contract of
  their own.
- Promises and the event loop are left out. Each `publish` runs synchronously to
  completion, since the console publisher never awaits. A poll's settlement is an
  explicit input. `setInterval` / `clearInterval` and the listener registration are
  represented by the set of live interval handles and a `listening` flag. The
  `interval` cadence is represented only by timer-firing inputs.
- An exception escaping the interval callback when a poll rejects is not modelled
  beyond "no `onChange`".

## Findings

| source | as written | input that shows it | evidently intended | confidence | as-written member | corrected member |
|---|---|---|---|---|---|---|
| src/utils/coreUtils.ts:8 | `this.onVisibilityChange` is registered unbound, so `this.paused = …` at line 25 assigns to the document and the scheduler's `paused` never changes | a scheduler with `shopOnVisibilityChange: true`, started; the page becomes hidden; the next tick still calls `poll` | while the page is hidden, ticks are skipped | high (not executed) | `Polling.VisibilityChangeAsWritten` (shown by `Polling.UnboundListenerNeverPauses`) | `Polling.VisibilityChangeIntended` (proved by `Polling.HiddenPageSuspendsPolling`) |

=== FILE: json.dfy ===
/** Values a caller may pass as a log `context`, JavaScript truthiness of them, and their
    `JSON.stringify` text. Numbers are restricted to integers; `Date.now().toString()` is
    the decimal text of an integer, given here with a parser that inverts it. */
module Json {
  import opened Wrappers

  /** A JSON-serialisable value. Object members are listed in the object's own-property
      order (integer-like keys first, then the others in insertion order). */
  datatype Value =
    | Null
    | Bool(b: bool)
    | Num(n: int)
    | Str(s: string)
    | Arr(items: seq<Value>)
    | Obj(members: seq<(string, Value)>)

  /** An optional `context?: any` argument: `None` is `undefined`. */
  type Context = Option<Value>

  /** JavaScript truthiness of a context argument: `undefined`, `null`, `false`, `0` and
      `""` are falsy, arrays and objects (even empty ones) are truthy. */
  predicate Truthy(c: Context) {
    match c
    case None => false
    case Some(v) =>
      match v
      case Null => false
      case Bool(b) => b
      case Num(n) => n != 0
      case Str(s) => s != ""
      case Arr(_) => true
      case Obj(_) => true
  }

  /** JavaScript truthiness of an optional string (`string | null | undefined`). */
  predicate TruthyString(s: Option<string>) {
    s.Some? && s.value != ""
  }

  // ---------------------------------------------------------------------------
  // Decimal integers, as `Number.prototype.toString()` writes them
  // ---------------------------------------------------------------------------

  predicate IsDigit(c: char) {
    '0' <= c <= '9'
  }

  function DigitChar(d: nat): (c: char)
    requires d < 10
    ensures IsDigit(c)
  {
    "0123456789"[d]
  }

  function DigitValue(c: char): nat
    requires IsDigit(c)
  {
    (c as int - '0' as int) as nat
  }

  /** The decimal digits of `n`, most significant first, with no leading zero. */
  function NatToString(n: nat): (s: string)
    ensures |s| > 0
    ensures forall i :: 0 <= i < |s| ==> IsDigit(s[i])
  {
    if n < 10 then [DigitChar(n)] else NatToString(n / 10) + [DigitChar(n % 10)]
  }

  /** The decimal text of an integer, with a leading `-` when it is negative. */
  function IntToString(n: int): (s: string)
    ensures |s| > 0
    ensures forall i :: 0 <= i < |s| ==> s[i] != ' '
  {
    if n < 0 then "-" + NatToString(-n) else NatToString(n)
  }

  /** Reads a string of decimal digits back as a number. */
  function ParseNat(s: string): nat
    requires forall i :: 0 <= i < |s| ==> IsDigit(s[i])
  {
    if |s| == 0 then 0 else ParseNat(s[..|s| - 1]) * 10 + DigitValue(s[|s| - 1])
  }

  /** Reads the text `IntToString` writes back as an integer. */
  function ParseInt(s: string): int
  {
    if |s| > 0 && s[0] == '-' && forall i :: 1 <= i < |s| ==> IsDigit(s[i]) then
      var m: int := ParseNat(s[1..]); -m
    else if forall i :: 0 <= i < |s| ==> IsDigit(s[i]) then
      ParseNat(s)
    else
      0
  }

  lemma {:induction false} NatToStringRoundTrip(n: nat)
    ensures ParseNat(NatToString(n)) == n
  {
    var s := NatToString(n);
    if n >= 10 {
      NatToStringRoundTrip(n / 10);
      assert s[..|s| - 1] == NatToString(n / 10);
      assert DigitValue(s[|s| - 1]) == n % 10;
    } else {
      assert DigitValue(s[0]) == n;
    }
  }

  /** The decimal text of a timestamp determines the timestamp. */
  lemma IntToStringRoundTrip(n: int)
    ensures ParseInt(IntToString(n)) == n
  {
    var s := IntToString(n);
    if n < 0 {
      NatToStringRoundTrip(-n);
      assert s[1..] == NatToString(-n);
    } else {
      NatToStringRoundTrip(n);
      assert s[0] != '-';
    }
  }

  lemma IntToStringInjective(a: int, b: int)
    requires IntToString(a) == IntToString(b)
    ensures a == b
  {
    IntToStringRoundTrip(a);
    IntToStringRoundTrip(b);
  }

  // ---------------------------------------------------------------------------
  // JSON.stringify (no indentation)
  // ---------------------------------------------------------------------------

  function HexDigit(d: nat): char
    requires d < 16
  {
    "0123456789abcdef"[d]
  }

  /** The escape `JSON.stringify` writes for one character of a string. */
  function EscapeChar(c: char): string
  {
    if c == '"' then "\\\""
    else if c == '\\' then "\\\\"
    else if c == '\n' then "\\n"
    else if c == '\r' then "\\r"
    else if c == '\t' then "\\t"
    else if c as int == 8 then "\\b"
    else if c as int == 12 then "\\f"
    else if (c as int) < 0x20 then "\\u00" + [HexDigit(c as int / 16), HexDigit(c as int % 16)]
    else [c]
  }

  function Escape(s: string): string
  {
    if |s| == 0 then "" else EscapeChar(s[0]) + Escape(s[1..])
  }

  function Quote(s: string): string
  {
    "\"" + Escape(s) + "\""
  }

  function Join(parts: seq<string>, sep: string): string
  {
    if |parts| == 0 then ""
    else if |parts| == 1 then parts[0]
    else parts[0] + sep + Join(parts[1..], sep)
  }

  /** The text `JSON.stringify(v)` produces for a value. */
  function Stringify(v: Value): (s: string)
    ensures |s| > 0
  {
    match v
    case Null => "null"
    case Bool(b) => if b then "true" else "false"
    case Num(n) => IntToString(n)
    case Str(t) => Quote(t)
    case Arr(items) =>
      "[" + Join(seq(|items|, i requires 0 <= i < |items| => Stringify(items[i])), ",") + "]"
    case Obj(members) =>
      "{" + Join(seq(|members|, i requires 0 <= i < |members| =>
                   Quote(members[i].0) + ":" + Stringify(members[i].1)), ",") + "}"
  }
}

=== FILE: log_buffer.dfy ===
/** The bounded log buffer kept in session storage under `IDQA_CONSOLE_LOGS` by the
    console publisher. The stored JSON array is modelled by its parsed value: `None` is
    "never written" (`getItem` returns `null`), `Some(logs)` is the array. */
module LogBuffer {
  import opened Wrappers

  /** `maxLogs` of the console publisher. */
  const MaxLogs: nat := 1000

  /** One stored record; `context` is the already stringified context. */
  datatype LogRecord = LogRecord(timeStamp: int, level: string, message: string, context: string)

  /** What the publisher reads before appending: `getLogs() || []`. */
  function Current(stored: Option<seq<LogRecord>>): (logs: seq<LogRecord>)
    ensures stored.None? ==> logs == []
    ensures stored.Some? ==> logs == stored.value
  {
    stored.GetOr([])
  }

  /** The array `publish` writes back: read, push `rec`, and drop the head when the
      length has reached `MaxLogs`. */
  function Append(stored: Option<seq<LogRecord>>, rec: LogRecord): (logs: seq<LogRecord>)
    ensures |logs| > 0 && logs[|logs| - 1] == rec
    ensures |Current(stored)| <= |logs| <= |Current(stored)| + 1
    ensures |Current(stored)| < MaxLogs ==> |logs| < MaxLogs
    ensures |logs| == |Current(stored)| <==> |Current(stored)| + 1 >= MaxLogs
    ensures stored.None? ==> logs == [rec]
  {
    var pushed := Current(stored) + [rec];
    if |pushed| >= MaxLogs then pushed[1..] else pushed
  }

  /** Publishing never reorders: the records before the new one are the old buffer,
      minus its oldest record exactly when the bound was reached. */
  lemma AppendEvictsOldest(stored: Option<seq<LogRecord>>, rec: LogRecord)
    ensures var logs := Append(stored, rec);
      && (|Current(stored)| + 1 >= MaxLogs ==> logs[..|logs| - 1] == Current(stored)[1..])
      && (|Current(stored)| + 1 < MaxLogs ==> logs[..|logs| - 1] == Current(stored))
  {
  }

  /** The last `k` elements of `s` (all of `s` when it is shorter). */
  function Window<T>(s: seq<T>, k: nat): (w: seq<T>)
    ensures |w| == if |s| <= k then |s| else k
  {
    if |s| <= k then s else s[|s| - k..]
  }

  /** The buffer after publishing `recs` in order, starting from `stored`. */
  function AppendAll(stored: Option<seq<LogRecord>>, recs: seq<LogRecord>): seq<LogRecord>
    decreases |recs|
  {
    if |recs| == 0 then Current(stored)
    else AppendAll(Some(Append(stored, recs[0])), recs[1..])
  }

  /** Appending to a buffer below the bound keeps exactly the most recent `MaxLogs - 1`
      records: the steady-state size is 999, not 1000. */
  lemma AppendIsWindow(stored: Option<seq<LogRecord>>, rec: LogRecord)
    requires |Current(stored)| < MaxLogs
    ensures Append(stored, rec) == Window(Current(stored) + [rec], MaxLogs - 1)
  {
  }

  /** FIFO retention: any run of publishes starting below the bound leaves the last
      `MaxLogs - 1` records of the whole history, in call order. */
  lemma {:induction false} AppendAllIsWindow(stored: Option<seq<LogRecord>>, recs: seq<LogRecord>)
    requires |Current(stored)| < MaxLogs
    ensures AppendAll(stored, recs) == Window(Current(stored) + recs, MaxLogs - 1)
    decreases |recs|
  {
    var s := Current(stored);
    if |recs| == 0 {
      assert s + recs == s;
    } else {
      var next := Append(stored, recs[0]);
      var rest := recs[1..];
      assert AppendAll(stored, recs) == AppendAll(Some(next), rest);
      AppendIsWindow(stored, recs[0]);
      assert |next| < MaxLogs;
      AppendAllIsWindow(Some(next), rest);
      assert Current(Some(next)) == next;
      WindowSuffix(s + [recs[0]], rest, MaxLogs - 1);
      SplitFirst(s, recs);
      var w1 := Window(next + rest, MaxLogs - 1);
      var w2 := Window(s + recs, MaxLogs - 1);
      assert w1 == w2;
    }
  }

  lemma SplitFirst<T>(s: seq<T>, xs: seq<T>)
    requires |xs| > 0
    ensures s + [xs[0]] + xs[1..] == s + xs
  {
  }

  /** Windowing before appending more does not change the final window. */
  lemma WindowSuffix<T>(s: seq<T>, more: seq<T>, k: nat)
    ensures Window(Window(s, k) + more, k) == Window(s + more, k)
  {
  }

  lemma WindowOfFreshHistory(stored: Option<seq<LogRecord>>, recs: seq<LogRecord>)
    requires Current(stored) == []
    requires |recs| > MaxLogs
    ensures Window(Current(stored) + recs, MaxLogs - 1) == recs[|recs| - (MaxLogs - 1)..]
  {
    assert Current(stored) + recs == recs;
  }

  /** More than `MaxLogs` publishes into an empty buffer leave the most recent
      `MaxLogs - 1` records, in call order. */
  lemma LongRunKeepsLastRecords(stored: Option<seq<LogRecord>>, recs: seq<LogRecord>)
    requires Current(stored) == []
    requires |recs| > MaxLogs
    ensures AppendAll(stored, recs) == recs[|recs| - (MaxLogs - 1)..]
  {
    WindowOfFreshHistory(stored, recs);
    AppendAllIsWindow(stored, recs);
  }

  /** ... so the buffer then holds exactly `MaxLogs - 1` records. */
  lemma LongRunSize(stored: Option<seq<LogRecord>>, recs: seq<LogRecord>)
    requires Current(stored) == []
    requires |recs| > MaxLogs
    ensures |AppendAll(stored, recs)| == MaxLogs - 1
  {
    LongRunKeepsLastRecords(stored, recs);
  }
}

=== FILE: logger.dfy ===
/** The `Logger` singleton. The process is a `World`: the static instance slot (empty
    until the first `getInstance`) and the console publisher's buffer in session
    storage. Every operation returns the new world and the events it produced; the
    clock reading `now` is a parameter. */
module Logger {
  import opened Wrappers
  import opened Json
  import opened LogBuffer
  import opened Publishers

  /** The record written when the singleton is created (spelling as in the code). */
  const InitMessage: string := "Logger initialzed"

  /** The fields of the one `Logger` object. */
  datatype Instance = Instance(publisher: Publisher, flowId: Option<string>)

  /** The static `Logger.instance` slot and the session-stored log buffer. */
  datatype World = World(instance: Option<Instance>, logs: Option<seq<LogRecord>>)

  /** The world after an operation and what it made observable, in order. */
  datatype Step = Step(world: World, events: seq<Event>)

  /** One `log` call, for runs of several. */
  datatype LogCall = LogCall(level: string, message: string, context: Context, now: int)

  /** A freshly constructed `Logger`: default console publisher, no flow. */
  function Fresh(): Instance {
    Instance(Console(ConsoleState(DefaultPrefix, None)), None)
  }

  /** The notice `setPublisherPrefix` logs. */
  function PrefixNotice(prefix: string): string {
    "publisher prefix set to " + prefix
  }

  /** The flow identity `startFlow(id)` records at time `now`. */
  function FlowToken(id: string, now: int): string {
    id + " " + IntToString(now)
  }

  // ---------------------------------------------------------------------------
  // Instance methods (callable once an instance exists)
  // ---------------------------------------------------------------------------

  /** `log(level, message, context)`: hands the call to the active publisher together
      with the current flow identity. */
  function Log(w: World, level: string, message: string, context: Context, now: int): (r: Step)
    requires w.instance.Some?
    ensures r.world.instance.Some?
    ensures r.world.instance.value.flowId == w.instance.value.flowId
    ensures r.world.instance.value.publisher.Console? == w.instance.value.publisher.Console?
    ensures r.world.instance.value.publisher.Prefix() == w.instance.value.publisher.Prefix()
    ensures w.instance.value.publisher.Custom? ==>
      && r.world == w
      && r.events == [Delivered(w.instance.value.publisher.name, level, message, context, w.instance.value.flowId)]
    ensures w.instance.value.publisher.Console? ==>
      && |r.events| > 0
      && r.world.logs == Some(Append(w.logs, LogRecord(now, level, message, StoredContext(context))))
      && r.events[|r.events| - 1] ==
           Route(level, Format(w.instance.value.publisher.Prefix(), now, level, message, context))
      && r.world.instance.value.publisher.state.currentFlowId ==
           FlowTransition(w.instance.value.publisher.state.currentFlowId, w.instance.value.flowId).0
      && r.events[..|r.events| - 1] ==
           FlowTransition(w.instance.value.publisher.state.currentFlowId, w.instance.value.flowId).1
  {
    var inst := w.instance.value;
    var p := Publish(inst.publisher, w.logs, level, message, context, inst.flowId, now);
    Step(World(Some(Instance(p.publisher, inst.flowId)), p.logs), p.events)
  }

  function Info(w: World, message: string, context: Context, now: int): Step
    requires w.instance.Some?
  {
    Log(w, "INFO", message, context, now)
  }

  function Warn(w: World, message: string, context: Context, now: int): Step
    requires w.instance.Some?
  {
    Log(w, "WARN", message, context, now)
  }

  function Error(w: World, message: string, context: Context, now: int): Step
    requires w.instance.Some?
  {
    Log(w, "ERROR", message, context, now)
  }

  /** `startFlow(id)`: records `id + ' ' + now` as the flow identity; nothing else changes. */
  function StartFlow(w: World, id: string, now: int): (r: World)
    requires w.instance.Some?
    ensures r.instance.Some? && r.logs == w.logs
    ensures r.instance.value.publisher == w.instance.value.publisher
    ensures r.instance.value.flowId == Some(FlowToken(id, now))
    ensures TruthyString(r.instance.value.flowId)
  {
    World(Some(w.instance.value.(flowId := Some(FlowToken(id, now)))), w.logs)
  }

  /** `addPublisher(p)`: replaces the active publisher unconditionally. */
  function AddPublisher(w: World, p: Publisher): (r: World)
    requires w.instance.Some?
    ensures r.instance.Some? && r.logs == w.logs
    ensures r.instance.value.publisher == p
    ensures r.instance.value.flowId == w.instance.value.flowId
  {
    World(Some(w.instance.value.(publisher := p)), w.logs)
  }

  // ---------------------------------------------------------------------------
  // Static methods
  // ---------------------------------------------------------------------------

  /** `Logger.getInstance()`: the first call constructs the instance and logs the one
      initialisation record through the default console publisher; later calls change
      nothing. */
  function GetInstance(w: World, now: int): (r: Step)
    ensures r.world.instance.Some?
    ensures w.instance.Some? ==> r == Step(w, [])
    ensures w.instance.None? ==>
      && r.world.instance == Some(Fresh())
      && r.events == [ConsoleInfo(Format(DefaultPrefix, now, "INFO", InitMessage, None))]
      && r.world.logs == Some(Append(w.logs, LogRecord(now, "INFO", InitMessage, "{}")))
  {
    if w.instance.Some? then Step(w, [])
    else Info(World(Some(Fresh()), w.logs), InitMessage, None, now)
  }

  /** `Logger.setPublisherPrefix(prefix)`: makes sure the instance exists, logs the notice
      (still under the old prefix), then sets the new prefix on the active publisher. */
  function SetPublisherPrefix(w: World, prefix: string, now: int): (r: Step)
    ensures r.world.instance.Some?
    ensures r.world.instance.value.publisher.Prefix() == prefix
    ensures |r.events| > 0
    ensures w.instance.Some? ==> r.world.instance.value.flowId == w.instance.value.flowId
    ensures
      var before := if w.instance.Some? then w.instance.value.publisher else Fresh().publisher;
      && r.world.instance.value.publisher.Console? == before.Console?
      && (before.Console? ==>
            r.events[|r.events| - 1] == ConsoleInfo(Format(before.Prefix(), now, "INFO", PrefixNotice(prefix), None)))
      && (before.Custom? ==>
            r.events == [Delivered(before.name, "INFO", PrefixNotice(prefix), None, w.instance.value.flowId)])
    ensures
      var g := GetInstance(w, now);
      r.world.logs == if g.world.instance.value.publisher.Console?
                      then Some(Append(g.world.logs, LogRecord(now, "INFO", PrefixNotice(prefix), "{}")))
                      else w.logs
    ensures w.instance.None? ==>
      && r.world.instance.value.flowId == None
      && r.events == [ConsoleInfo(Format(DefaultPrefix, now, "INFO", InitMessage, None)),
                      ConsoleInfo(Format(DefaultPrefix, now, "INFO", PrefixNotice(prefix), None))]
    ensures w.instance.Some? && w.instance.value.publisher.Console? ==>
      var ft := FlowTransition(w.instance.value.publisher.state.currentFlowId, w.instance.value.flowId);
      && r.world.instance.value.publisher.state.currentFlowId == ft.0
      && r.events[..|r.events| - 1] == ft.1
    ensures w.instance.Some? && w.instance.value.publisher.Custom? ==>
      r.world.instance.value.publisher == Custom(w.instance.value.publisher.name, prefix)
  {
    var g := GetInstance(w, now);
    var n := Info(g.world, PrefixNotice(prefix), None, now);
    var inst := n.world.instance.value;
    Step(World(Some(inst.(publisher := SetPrefix(inst.publisher, prefix))), n.world.logs), g.events + n.events)
  }

  /** `Logger.downloadLogs(fileName)`: reads the static slot directly, so it throws before
      the first `getInstance`; otherwise the active publisher decides. */
  function DownloadLogs(w: World, fileName: Option<string>): (r: Outcome)
    ensures w.instance.None? ==> r.Threw?
    ensures w.instance.Some? ==> r == Publishers.DownloadLogs(w.instance.value.publisher, w.logs, fileName)
    ensures r.Completed? && Downloads(r.events) <==>
      w.instance.Some? && w.instance.value.publisher.Console? && w.logs.Some? && w.logs.value != []
  {
    if w.instance.None? then Threw("no instance yet")
    else Publishers.DownloadLogs(w.instance.value.publisher, w.logs, fileName)
  }

  /** `getLoggerInstance({prefix})`: sets the prefix when it is truthy, then returns the
      singleton. */
  function GetLoggerInstance(w: World, prefix: Option<string>, now: int): (r: Step)
    ensures r.world.instance.Some?
    ensures TruthyString(prefix) ==> r.world.instance.value.publisher.Prefix() == prefix.value
    ensures TruthyString(prefix) ==> r == SetPublisherPrefix(w, prefix.value, now)
    ensures !TruthyString(prefix) ==> r == GetInstance(w, now)
  {
    if TruthyString(prefix) then
      var s := SetPublisherPrefix(w, prefix.value, now);
      var g := GetInstance(s.world, now);
      Step(g.world, s.events + g.events)
    else
      GetInstance(w, now)
  }

  // ---------------------------------------------------------------------------
  // Properties across calls
  // ---------------------------------------------------------------------------

  /** Runs `log` calls in order, collecting their events. */
  function RunLogs(w: World, calls: seq<LogCall>): (r: Step)
    requires w.instance.Some?
    ensures r.world.instance.Some?
    decreases |calls|
  {
    if |calls| == 0 then Step(w, [])
    else
      var c := calls[0];
      var s := Log(w, c.level, c.message, c.context, c.now);
      var rest := RunLogs(s.world, calls[1..]);
      Step(rest.world, s.events + rest.events)
  }

  /** The record one `log` call stores in the console buffer. */
  function RecordOf(c: LogCall): LogRecord {
    LogRecord(c.now, c.level, c.message, StoredContext(c.context))
  }

  /** The records a run of `log` calls stores, in call order. */
  function Records(calls: seq<LogCall>): seq<LogRecord>
    decreases |calls|
  {
    if |calls| == 0 then [] else [RecordOf(calls[0])] + Records(calls[1..])
  }

  /** A run of `log` calls on the console publisher writes the buffer exactly as
      publishing its records one after another does. */
  lemma {:induction false} RunLogsAppendsAll(w: World, calls: seq<LogCall>)
    requires w.instance.Some? && w.instance.value.publisher.Console?
    ensures RunLogs(w, calls).world.logs ==
      if |calls| == 0 then w.logs else Some(AppendAll(w.logs, Records(calls)))
    decreases |calls|
  {
    if |calls| > 0 {
      var c := calls[0];
      var s := Log(w, c.level, c.message, c.context, c.now);
      assert s.world.logs == Some(Append(w.logs, RecordOf(c)));
      RunLogsAppendsAll(s.world, calls[1..]);
      var recs := Records(calls);
      assert recs[0] == RecordOf(c) && recs[1..] == Records(calls[1..]);
      assert AppendAll(w.logs, recs) == AppendAll(Some(Append(w.logs, RecordOf(c))), Records(calls[1..]));
      if |calls| == 1 {
        assert Records(calls[1..]) == [];
      }
    }
  }

  /** FIFO retention for `Logger.log`: from a buffer below the bound, a run of logs
      leaves the last `MaxLogs - 1` records of the whole history, in call order. */
  lemma LogRunKeepsWindow(w: World, calls: seq<LogCall>)
    requires w.instance.Some? && w.instance.value.publisher.Console?
    requires |Current(w.logs)| < MaxLogs
    ensures Current(RunLogs(w, calls).world.logs) == Window(Current(w.logs) + Records(calls), MaxLogs - 1)
  {
    RunLogsAppendsAll(w, calls);
    if |calls| == 0 {
      assert Current(w.logs) + Records(calls) == Current(w.logs);
    } else {
      AppendAllIsWindow(w.logs, Records(calls));
    }
  }

  /** `getInstance` is idempotent: a second call returns the same world and logs nothing. */
  lemma GetInstanceIdempotent(w: World, t: int, u: int)
    ensures var first := GetInstance(w, t);
      GetInstance(first.world, u) == Step(first.world, [])
  {
  }

  /** Every `log` after `startFlow(id)` carries `id + ' ' + now` until the next
      `startFlow`; with a caller-supplied publisher each call is delivered exactly once,
      in order, with that identity, and the console buffer is untouched. */
  lemma {:induction false} LogsCarryFlow(w: World, calls: seq<LogCall>)
    requires w.instance.Some?
    ensures RunLogs(w, calls).world.instance.value.flowId == w.instance.value.flowId
    ensures w.instance.value.publisher.Custom? ==>
      var r := RunLogs(w, calls);
      && r.world == w
      && |r.events| == |calls|
      && forall i :: 0 <= i < |calls| ==>
           r.events[i] == Delivered(w.instance.value.publisher.name, calls[i].level, calls[i].message,
                                    calls[i].context, w.instance.value.flowId)
    decreases |calls|
  {
    if |calls| > 0 {
      var c := calls[0];
      var s := Log(w, c.level, c.message, c.context, c.now);
      LogsCarryFlow(s.world, calls[1..]);
      if w.instance.value.publisher.Custom? {
        var r := RunLogs(w, calls);
        var rest := RunLogs(s.world, calls[1..]);
        assert r.events == s.events + rest.events;
        forall i | 0 <= i < |calls|
          ensures r.events[i] == Delivered(w.instance.value.publisher.name, calls[i].level, calls[i].message,
                                           calls[i].context, w.instance.value.flowId)
        {
          if i > 0 {
            assert r.events[i] == rest.events[i - 1];
            assert calls[1..][i - 1] == calls[i];
          }
        }
      }
    }
  }

  /** After `startFlow(id)` the next `log` forwards exactly `id + ' ' + now`. */
  lemma StartFlowThenLog(w: World, id: string, t: int, c: LogCall)
    requires w.instance.Some?
    ensures var s := StartFlow(w, id, t);
      var r := Log(s, c.level, c.message, c.context, c.now);
      && r.world.instance.value.flowId == Some(FlowToken(id, t))
      && (w.instance.value.publisher.Custom? ==>
            r.events == [Delivered(w.instance.value.publisher.name, c.level, c.message, c.context, Some(FlowToken(id, t)))])
      && (w.instance.value.publisher.Console? ==>
            r.world.instance.value.publisher.state.currentFlowId == Some(FlowToken(id, t)))
  {
  }

  /** After `addPublisher(p)` a `log` reaches only `p`: the old console publisher writes
      neither console lines nor buffer records. */
  lemma AddPublisherReroutes(w: World, name: string, prefix: string, c: LogCall)
    requires w.instance.Some?
    ensures var s := AddPublisher(w, Custom(name, prefix));
      var r := Log(s, c.level, c.message, c.context, c.now);
      && r.events == [Delivered(name, c.level, c.message, c.context, w.instance.value.flowId)]
      && r.world.logs == w.logs
  {
  }

  /** The notice of `setPublisherPrefix` is tagged with the old prefix, ... */
  lemma PrefixNoticeTaggedWithOldPrefix(w: World, prefix: string, now: int)
    requires w.instance.None? || w.instance.value.publisher.Console?
    requires ']' !in (if w.instance.Some? then w.instance.value.publisher.Prefix() else DefaultPrefix)
    ensures var r := SetPublisherPrefix(w, prefix, now);
      LinePrefix(r.events[|r.events| - 1].line) ==
        if w.instance.Some? then w.instance.value.publisher.Prefix() else DefaultPrefix
  {
    var before := if w.instance.Some? then w.instance.value.publisher.Prefix() else DefaultPrefix;
    FormatCarriesPrefix(before, now, "INFO", PrefixNotice(prefix), None);
  }

  /** ... and the lines logged after it with the new one. */
  lemma LaterLinesTaggedWithNewPrefix(w: World, prefix: string, now: int, c: LogCall)
    requires w.instance.None? || w.instance.value.publisher.Console?
    requires ']' !in prefix
    ensures var r := SetPublisherPrefix(w, prefix, now);
      var next := Log(r.world, c.level, c.message, c.context, c.now);
      LinePrefix(next.events[|next.events| - 1].line) == prefix
  {
    FormatCarriesPrefix(prefix, c.now, c.level, c.message, c.context);
  }

  lemma {:induction false} SplitAtLastSpace(x: string, y: string, x2: string, y2: string)
    requires forall i :: 0 <= i < |y| ==> y[i] != ' '
    requires forall i :: 0 <= i < |y2| ==> y2[i] != ' '
    requires x + " " + y == x2 + " " + y2
    ensures x == x2 && y == y2
  {
    var s := x + " " + y;
    assert s[|x|] == ' ';
    assert s[|x2|] == ' ';
    assert x == s[..|x|];
    assert x2 == s[..|x2|];
    assert y == s[|x| + 1..];
    assert y2 == s[|x2| + 1..];
  }

  /** A flow identity determines the id and the time it was started with. */
  lemma FlowTokenInjective(a: string, t: int, b: string, u: int)
    requires FlowToken(a, t) == FlowToken(b, u)
    ensures a == b && t == u
  {
    SplitAtLastSpace(a, IntToString(t), b, IntToString(u));
    IntToStringInjective(t, u);
  }

  /** The first `log` under a new flow identity opens a console group for it, closing
      the group that was open, if any. */
  lemma NewFlowOpensGroup(w: World, id: string, t: int, c: LogCall)
    requires w.instance.Some? && w.instance.value.publisher.Console?
    requires w.instance.value.publisher.state.currentFlowId != Some(FlowToken(id, t))
    ensures var r := Log(StartFlow(w, id, t), c.level, c.message, c.context, c.now);
      && |r.events| >= 2
      && r.events[|r.events| - 2] == GroupCollapsed(GroupLabel(FlowToken(id, t)), GroupStyle)
      && (r.events[0] == GroupEnd <==> TruthyString(w.instance.value.publisher.state.currentFlowId))
      && r.world.instance.value.publisher.state.currentFlowId == Some(FlowToken(id, t))
  {
  }

  /** A `log` under the flow identity the console is already grouping adds no group
      event: exactly one console line. */
  lemma SameFlowAddsNoGroup(w: World, c: LogCall)
    requires w.instance.Some? && w.instance.value.publisher.Console?
    requires w.instance.value.publisher.state.currentFlowId == w.instance.value.flowId
    ensures var r := Log(w, c.level, c.message, c.context, c.now);
      && |r.events| == 1
      && r.world.instance.value.publisher.state == w.instance.value.publisher.state
  {
  }

  /** `startFlow('a')`, two logs, `startFlow('b')`, one log on the console publisher:
      the first log opens the group of flow a, the second adds no group event, the third
      closes that group and opens a new, distinct one for flow b. */
  lemma FlowGroupingScenario(w: World, a: string, t1: int, b: string, t2: int, c1: LogCall, c2: LogCall, c3: LogCall)
    requires w.instance.Some? && w.instance.value.publisher.Console?
    requires w.instance.value.publisher.state.currentFlowId != Some(FlowToken(a, t1))
    requires a != b
    ensures
      var s1 := Log(StartFlow(w, a, t1), c1.level, c1.message, c1.context, c1.now);
      var s2 := Log(s1.world, c2.level, c2.message, c2.context, c2.now);
      var s3 := Log(StartFlow(s2.world, b, t2), c3.level, c3.message, c3.context, c3.now);
      && |s1.events| >= 2
      && s1.events[|s1.events| - 2] == GroupCollapsed(GroupLabel(FlowToken(a, t1)), GroupStyle)
      && |s2.events| == 1
      && |s3.events| == 3
      && s3.events[0] == GroupEnd
      && s3.events[1] == GroupCollapsed(GroupLabel(FlowToken(b, t2)), GroupStyle)
      && FlowToken(a, t1) != FlowToken(b, t2)
  {
    if FlowToken(a, t1) == FlowToken(b, t2) {
      FlowTokenInjective(a, t1, b, t2);
    }
    var s1 := Log(StartFlow(w, a, t1), c1.level, c1.message, c1.context, c1.now);
    NewFlowOpensGroup(w, a, t1, c1);
    SameFlowAddsNoGroup(s1.world, c2);
    var s2 := Log(s1.world, c2.level, c2.message, c2.context, c2.now);
    NewFlowOpensGroup(s2.world, b, t2, c3);
  }
}

=== FILE: polling.dfy ===
/** `AsyncPolling` as a state machine. Timer firings, poll settlements, visibility
    changes, `start` and `stop` are inputs; calls of `poll` and of `onChange` are
    outputs. Interval handles are numbered by a counter so that a cleared interval is
    told apart from one that is still live. */
module Polling {
  import opened Wrappers

  /** `AsyncPollingConfig` as far as scheduling depends on it; the cadence of
      `interval` is represented by `Tick` inputs. */
  datatype Config = Config(shopOnVisibilityChange: Option<bool>)

  /** The scheduler's fields, plus what the browser holds for it: the live intervals,
      whether the visibility listener is registered, and the number of `poll()`
      promises not yet settled. */
  datatype State = State(
    timer: Option<nat>,
    live: set<nat>,
    nextHandle: nat,
    listening: bool,
    paused: bool,
    isPreviousCallActive: bool,
    outstanding: nat)

  /** How a `poll()` promise settles. */
  datatype Settlement<P> = Resolved(payload: P) | Rejected

  datatype Input<P> =
    | StartCalled
    | StopCalled
    | TimerFired(handle: nat)
    | VisibilityChanged(hidden: bool)
    | PollSettled(result: Settlement<P>)

  datatype Output<P> = PollCalled | OnChange(payload: P)

  datatype Transition<P> = Transition(state: State, outputs: seq<Output<P>>)

  /** A newly constructed scheduler: no timer, not paused, nothing in flight. */
  function Initial(): State {
    State(None, {}, 1, false, false, false, 0)
  }

  /** The scheduler's invariant: at most one poll in flight, and the in-flight flag says
      exactly whether there is one; handles below the counter. */
  predicate Valid(s: State) {
    && s.outstanding <= 1
    && (s.isPreviousCallActive <==> s.outstanding == 1)
    && (forall h :: h in s.live ==> h < s.nextHandle)
    && (s.timer.Some? ==> s.timer.value < s.nextHandle)
  }

  /** The guard at the top of the interval callback. Only an explicit `true` for
      `shopOnVisibilityChange` lets `paused` suppress a tick. */
  predicate SkipsTick(cfg: Config, s: State) {
    (s.paused && cfg.shopOnVisibilityChange == Some(true)) || s.isPreviousCallActive
  }

  /** `start()`: registers the visibility listener (a second registration of the same
      listener is a no-op) and arms a new interval, whose handle replaces `timer`. */
  function Start(s: State): (r: State)
    requires Valid(s)
    ensures Valid(r)
    ensures r.listening && r.timer == Some(s.nextHandle)
    ensures s.nextHandle !in s.live && r.live == s.live + {s.nextHandle}
    ensures r.paused == s.paused && r.isPreviousCallActive == s.isPreviousCallActive && r.outstanding == s.outstanding
  {
    State(Some(s.nextHandle), s.live + {s.nextHandle}, s.nextHandle + 1, true,
          s.paused, s.isPreviousCallActive, s.outstanding)
  }

  /** `stop()`: removes the listener and clears the interval in `timer`, if any. It
      resets neither `paused` nor the in-flight flag, and leaves `timer` set. */
  function Stop(s: State): (r: State)
    ensures !r.listening
    ensures s.timer.Some? ==> r.live == s.live - {s.timer.value}
    ensures s.timer.None? ==> r.live == s.live
    ensures r.(listening := s.listening, live := s.live) == s
    ensures Valid(s) ==> Valid(r)
  {
    var live := if s.timer.Some? then s.live - {s.timer.value} else s.live;
    s.(listening := false, live := live)
  }

  /** One firing of interval `h`, with whether it called `poll`. A cleared interval
      never fires; a firing that passes the guard sets the in-flight flag and calls
      `poll`. */
  function Tick(cfg: Config, s: State, h: nat): (r: (State, bool))
    ensures r.1 <==> h in s.live && !SkipsTick(cfg, s)
    ensures !r.1 ==> r.0 == s
    ensures r.1 ==>
      && r.0.isPreviousCallActive
      && r.0.outstanding == s.outstanding + 1
      && r.0.(isPreviousCallActive := s.isPreviousCallActive, outstanding := s.outstanding) == s
  {
    if h !in s.live || SkipsTick(cfg, s) then (s, false)
    else (s.(isPreviousCallActive := true, outstanding := s.outstanding + 1), true)
  }

  /** The visibility listener with the meaning the code evidently intends: while it is
      registered, a change sets `paused` to whether the page is hidden. */
  function VisibilityChangeIntended(s: State, hidden: bool): (r: State)
    ensures s.listening ==> r.paused == hidden
    ensures !s.listening ==> r == s
    ensures r.(paused := s.paused) == s
  {
    if s.listening then s.(paused := hidden) else s
  }

  /** The listener as written: it is registered unbound, so `this` is the document and
      the assignment never reaches the scheduler. */
  function VisibilityChangeAsWritten(s: State, hidden: bool): (r: State)
    ensures r.paused == s.paused
  {
    s
  }

  /** Settlement of the outstanding `poll()` promise: the `finally` clears the flag on
      both outcomes, and only a resolved promise reaches `onChange`, even after `stop`. */
  function Settle<P>(s: State, result: Settlement<P>): (r: Transition<P>)
    ensures s.outstanding == 0 ==> r == Transition(s, [])
    ensures s.outstanding > 0 ==>
      && !r.state.isPreviousCallActive
      && r.state.outstanding == s.outstanding - 1
      && r.state.(isPreviousCallActive := s.isPreviousCallActive, outstanding := s.outstanding) == s
    ensures r.outputs != [] <==> s.outstanding > 0 && result.Resolved?
    ensures r.outputs != [] ==> r.outputs == [OnChange(result.payload)]
    ensures Valid(s) ==> Valid(r.state)
  {
    if s.outstanding == 0 then Transition(s, [])
    else
      var s' := s.(isPreviousCallActive := false, outstanding := s.outstanding - 1);
      match result
      case Resolved(p) => Transition(s', [OnChange(p)])
      case Rejected => Transition(s', [])
  }

  /** One input. */
  function Step<P>(cfg: Config, s: State, input: Input<P>): (r: Transition<P>)
    requires Valid(s)
    ensures Valid(r.state)
  {
    match input
    case StartCalled => Transition(Start(s), [])
    case StopCalled => Transition(Stop(s), [])
    case TimerFired(h) =>
      var (s', polled) := Tick(cfg, s, h);
      Transition(s', if polled then [PollCalled] else [])
    case VisibilityChanged(hidden) => Transition(VisibilityChangeIntended(s, hidden), [])
    case PollSettled(result) => Settle(s, result)
  }

  /** A run of inputs, collecting outputs in order. */
  function Run<P>(cfg: Config, s: State, inputs: seq<Input<P>>): (r: Transition<P>)
    requires Valid(s)
    ensures Valid(r.state)
    decreases |inputs|
  {
    if |inputs| == 0 then Transition(s, [])
    else
      var t := Step(cfg, s, inputs[0]);
      var rest := Run(cfg, t.state, inputs[1..]);
      Transition(rest.state, t.outputs + rest.outputs)
  }

  /** Overlap suppression: from a fresh scheduler, whatever the inputs, at most one
      poll is in flight and the in-flight flag says whether there is one. */
  lemma AtMostOnePollInFlight<P>(cfg: Config, inputs: seq<Input<P>>)
    ensures Run(cfg, Initial(), inputs).state.outstanding <= 1
    ensures Run(cfg, Initial(), inputs).state.isPreviousCallActive <==> Run(cfg, Initial(), inputs).state.outstanding == 1
  {
  }

  /** Only ticks, in any number. */
  predicate AllTicks<P>(inputs: seq<Input<P>>) {
    forall i :: 0 <= i < |inputs| ==> inputs[i].TimerFired?
  }

  /** Ticks change nothing while the scheduler skips them. */
  lemma {:induction false} SkippedTicksDoNothing<P>(cfg: Config, s: State, inputs: seq<Input<P>>)
    requires Valid(s) && SkipsTick(cfg, s) && AllTicks(inputs)
    ensures Run(cfg, s, inputs) == Transition(s, [])
    decreases |inputs|
  {
    if |inputs| > 0 {
      assert inputs[0].TimerFired?;
      SkippedTicksDoNothing(cfg, s, inputs[1..]);
    }
  }

  /** With `shopOnVisibilityChange` true, a hidden-page observation followed by any
      number of ticks calls `poll` zero times; after the page is visible again, the next
      tick of a live interval with nothing in flight calls it exactly once. */
  lemma HiddenPageSuspendsPolling<P>(s: State, ticks: seq<Input<P>>, h: nat)
    requires Valid(s) && s.listening && AllTicks(ticks)
    requires !s.isPreviousCallActive && h in s.live
    ensures var cfg := Config(Some(true));
      var hidden := Run(cfg, s, [VisibilityChanged(true)] + ticks);
      && hidden.outputs == []
      && Run<P>(cfg, hidden.state, [VisibilityChanged(false), TimerFired(h)]).outputs == [PollCalled]
  {
    var cfg := Config(Some(true));
    var inputs: seq<Input<P>> := [VisibilityChanged(true)] + ticks;
    var s1 := VisibilityChangeIntended(s, true);
    assert inputs[1..] == ticks;
    SkippedTicksDoNothing(cfg, s1, ticks);
    assert Run(cfg, s, inputs) == Run(cfg, s1, ticks);
    var s2 := VisibilityChangeIntended(s1, false);
    var tail: seq<Input<P>> := [VisibilityChanged(false), TimerFired(h)];
    assert tail[1..] == [TimerFired(h)];
    assert Run(cfg, s1, tail) == Run(cfg, s2, [TimerFired(h)]);
    assert Tick(cfg, s2, h).1;
  }

  /** `paused` alone suppresses nothing: without an explicit `true` flag a paused
      scheduler still polls. */
  lemma PausedPollsWithoutFlag(cfg: Config, s: State, h: nat)
    requires cfg.shopOnVisibilityChange != Some(true)
    requires s.paused && !s.isPreviousCallActive && h in s.live
    ensures Tick(cfg, s, h).1
  {
  }

  /** A tick while a poll is in flight does nothing; once that poll settles, the next
      tick polls again (when the page is not paused-suppressed). */
  lemma OverlapSuppressed<P>(cfg: Config, s: State, h: nat, result: Settlement<P>)
    requires Valid(s) && s.isPreviousCallActive && h in s.live
    requires !(s.paused && cfg.shopOnVisibilityChange == Some(true))
    ensures Tick(cfg, s, h) == (s, false)
    ensures Tick(cfg, Settle(s, result).state, h).1
  {
  }

  /** `stop` does not cancel a poll in flight: it still settles, clears the flag and,
      when it resolves, still reaches `onChange`; no interval it cleared fires again. */
  lemma StopLetsInFlightPollDeliver<P>(s: State, p: P)
    requires Valid(s) && s.isPreviousCallActive
    ensures var t := Settle(Stop(s), Resolved(p));
      && t.outputs == [OnChange(p)]
      && !t.state.isPreviousCallActive
      && t.state.paused == s.paused
  {
  }

  /** After `start` then `stop` no interval is live, so no tick fires and no poll starts. */
  lemma StartStopSilences(cfg: Config, s: State, h: nat)
    requires Valid(s) && s.live == {}
    ensures Stop(Start(s)).live == {}
    ensures !Tick(cfg, Stop(Start(s)), h).1
  {
  }

  /** Calling `start` twice arms two intervals but `timer` keeps only the second, so
      `stop` leaves the first one live and it keeps polling. */
  lemma DoubleStartLeaksInterval(cfg: Config)
    ensures var s := Stop(Start(Start(Initial())));
      && s.live == {1}
      && Tick(cfg, s, 1).1
  {
    var s := Stop(Start(Start(Initial())));
    assert Start(Start(Initial())).live == {1, 2};
    assert {1, 2} - {2} == {1};
  }

  /** The unbound listener as written never pauses the scheduler: with the flag set, a
      hidden-page event followed by a tick still calls `poll`, where the intended
      listener suppresses that tick. */
  lemma UnboundListenerNeverPauses(s: State, h: nat)
    requires Valid(s) && s.listening && !s.paused && !s.isPreviousCallActive && h in s.live
    ensures Tick(Config(Some(true)), VisibilityChangeAsWritten(s, true), h).1
    ensures !Tick(Config(Some(true)), VisibilityChangeIntended(s, true), h).1
  {
  }
}

=== FILE: publishers.dfy ===
/** The publisher abstraction and its console implementation: flow grouping, line
    formatting, level routing, persistence into the bounded buffer, and the download
    decision. Console output and the download are recorded as `Event`s. */
module Publishers {
  import opened Wrappers
  import opened Json
  import opened LogBuffer

  /** Initial `prefix` of the console publisher. */
  const DefaultPrefix: string := "CONSOLE_LOGGER"
  /** Default `filename` of `downloadLogs`. */
  const DefaultFileName: string := "logs.json"
  /** Diagnostic written when there is nothing to download. */
  const NoLogsMessage: string := "no logs stored till now, please try again later"
  /** Style argument of `console.groupCollapsed`. */
  const GroupStyle: string := "color:gray"

  /** What a publisher makes observable. `Delivered` is one `publish` call received by
      a caller-supplied publisher; `Downloaded` is the file offered to the user. */
  datatype Event =
    | ConsoleInfo(line: string)
    | ConsoleWarn(line: string)
    | ConsoleError(line: string)
    | ConsoleLog(line: string)
    | GroupCollapsed(title: string, style: string)
    | GroupEnd
    | Delivered(sink: string, level: string, message: string, context: Context, flowId: Option<string>)
    | Downloaded(fileName: string, records: seq<LogRecord>)

  /** A call that either returns, having produced `events`, or throws. */
  datatype Outcome = Completed(events: seq<Event>) | Threw(reason: string)

  /** The console publisher's own fields (`maxLogs` and the storage id are constants). */
  datatype ConsoleState = ConsoleState(prefix: string, currentFlowId: Option<string>)

  /** The active publisher: the built-in console one, or one supplied by the caller,
      which is modelled as a named sink that records every call it receives. */
  datatype Publisher =
    | Console(state: ConsoleState)
    | Custom(name: string, customPrefix: string)
  {
    function Prefix(): string {
      match this
      case Console(s) => s.prefix
      case Custom(_, p) => p
    }
  }

  /** Result of one console `publish`: new fields, the buffer written back, the output. */
  datatype ConsoleStep = ConsoleStep(state: ConsoleState, logs: seq<LogRecord>, events: seq<Event>)

  /** Result of one `publish` on any publisher. */
  datatype Published = Published(publisher: Publisher, logs: Option<seq<LogRecord>>, events: seq<Event>)

  // ---------------------------------------------------------------------------
  // Flow grouping
  // ---------------------------------------------------------------------------

  function GroupLabel(flowId: string): string {
    "Flow: " + flowId
  }

  /** The flow-group step at the top of `publish`: a truthy flow id that is not the one
      being grouped closes the open group (if any) and opens a group for it. */
  function FlowTransition(current: Option<string>, flowId: Option<string>): (r: (Option<string>, seq<Event>))
    ensures !TruthyString(flowId) ==> r == (current, [])
    ensures current == flowId ==> r == (current, [])
    ensures r.1 != [] <==> TruthyString(flowId) && current != flowId
    ensures r.1 != [] ==> r.0 == flowId && r.1[|r.1| - 1] == GroupCollapsed(GroupLabel(flowId.value), GroupStyle)
    ensures GroupEnd in r.1 <==> TruthyString(flowId) && current != flowId && TruthyString(current)
    ensures |r.1| <= 2 && (|r.1| == 2 ==> r.1[0] == GroupEnd)
    ensures TruthyString(current) ==> TruthyString(r.0)
  {
    if (current != flowId || !TruthyString(current)) && TruthyString(flowId) then
      var close := if TruthyString(current) then [GroupEnd] else [];
      (flowId, close + [GroupCollapsed(GroupLabel(flowId.value), GroupStyle)])
    else
      (current, [])
  }

  // ---------------------------------------------------------------------------
  // Formatting and routing
  // ---------------------------------------------------------------------------

  /** The text of the context shown on a console line: its JSON when truthy. */
  function ContextSuffix(context: Context): string {
    if Truthy(context) then Stringify(context.value) else ""
  }

  /** The console line `[prefix] [now] LEVEL: message ` followed by the context's JSON
      when the context is truthy. */
  function Format(prefix: string, now: int, level: string, message: string, context: Context): string {
    "[" + prefix + "]" + FormatTail(now, level, message, context)
  }

  /** Everything of a console line after the prefix tag. */
  function FormatTail(now: int, level: string, message: string, context: Context): string {
    " [" + IntToString(now) + "] " + level + ": " + message + " " + ContextSuffix(context)
  }

  /** The tag a console line starts with: the text between its leading `[` and the first `]`. */
  function LinePrefix(line: string): string {
    if |line| > 0 && line[0] == '[' then UpTo(line[1..], ']') else ""
  }

  function UpTo(s: string, stop: char): (r: string)
    ensures |r| <= |s|
  {
    if |s| == 0 || s[0] == stop then "" else [s[0]] + UpTo(s[1..], stop)
  }

  lemma {:induction false} UpToPrefix(a: string, stop: char, rest: string)
    requires stop !in a
    ensures UpTo(a + [stop] + rest, stop) == a
  {
    if |a| > 0 {
      assert (a + [stop] + rest)[1..] == a[1..] + [stop] + rest;
      UpToPrefix(a[1..], stop, rest);
    }
  }

  /** Every console line carries the prefix it was formatted with, readable back from
      the line when the prefix has no `]`. */
  lemma FormatCarriesPrefix(prefix: string, now: int, level: string, message: string, context: Context)
    requires ']' !in prefix
    ensures LinePrefix(Format(prefix, now, level, message, context)) == prefix
  {
    var line := Format(prefix, now, level, message, context);
    var rest := FormatTail(now, level, message, context);
    assert line[1..] == prefix + [']'] + rest;
    UpToPrefix(prefix, ']', rest);
  }

  /** The message part of a line ends in a space; the context's JSON follows it only
      when the context is truthy. */
  lemma FormatContextSuffix(prefix: string, now: int, level: string, message: string, context: Context)
    ensures var line := Format(prefix, now, level, message, context);
      var head := "[" + prefix + "]" + " [" + IntToString(now) + "] " + level + ": " + message + " ";
      && line[..|head|] == head
      && (Truthy(context) ==> line[|head|..] == Stringify(context.value))
      && (!Truthy(context) ==> line == head && line[|line| - 1] == ' ')
  {
  }

  /** `console.info`, `console.warn` and `console.error` get their own level; every
      other level goes to `console.log`. */
  function Route(level: string, line: string): (e: Event)
    ensures e.ConsoleInfo? <==> level == "INFO"
    ensures e.ConsoleWarn? <==> level == "WARN"
    ensures e.ConsoleError? <==> level == "ERROR"
    ensures e.ConsoleLog? <==> level != "INFO" && level != "WARN" && level != "ERROR"
    ensures e.line == line
  {
    match level
    case "INFO" => ConsoleInfo(line)
    case "WARN" => ConsoleWarn(line)
    case "ERROR" => ConsoleError(line)
    case _ => ConsoleLog(line)
  }

  /** The context as persisted: `JSON.stringify(context || {})`. */
  function StoredContext(context: Context): (s: string)
    ensures !Truthy(context) ==> s == "{}"
    ensures Truthy(context) ==> s == Stringify(context.value)
  {
    Stringify(if Truthy(context) then context.value else Obj([]))
  }

  // ---------------------------------------------------------------------------
  // publish, setPrefix, downloadLogs
  // ---------------------------------------------------------------------------

  /** `ConsolePublisher.publish(level, message, context, flowId)` at time `now`, with
      `stored` the buffer it reads from session storage. */
  function ConsolePublish(p: ConsoleState, stored: Option<seq<LogRecord>>, level: string, message: string,
                          context: Context, flowId: Option<string>, now: int): (r: ConsoleStep)
    ensures r.state.prefix == p.prefix
    ensures |r.events| > 0 && |r.logs| > 0
    ensures r.state.currentFlowId == FlowTransition(p.currentFlowId, flowId).0
    ensures r.events[..|r.events| - 1] == FlowTransition(p.currentFlowId, flowId).1
    ensures r.events[|r.events| - 1] == Route(level, Format(p.prefix, now, level, message, context))
    ensures r.logs == Append(stored, LogRecord(now, level, message, StoredContext(context)))
    ensures r.logs[|r.logs| - 1] == LogRecord(now, level, message, StoredContext(context))
    ensures |Current(stored)| < MaxLogs ==> |r.logs| < MaxLogs
    ensures stored.None? ==> r.logs == [LogRecord(now, level, message, StoredContext(context))]
  {
    var (flow, groupEvents) := FlowTransition(p.currentFlowId, flowId);
    var line := Format(p.prefix, now, level, message, context);
    var logs := Append(stored, LogRecord(now, level, message, StoredContext(context)));
    ConsoleStep(ConsoleState(p.prefix, flow), logs, groupEvents + [Route(level, line)])
  }

  /** `publish` on the active publisher. A caller-supplied publisher receives the call
      and leaves the console buffer alone. */
  function Publish(pub: Publisher, stored: Option<seq<LogRecord>>, level: string, message: string,
                   context: Context, flowId: Option<string>, now: int): (r: Published)
    ensures r.publisher.Console? == pub.Console?
    ensures r.publisher.Prefix() == pub.Prefix()
    ensures pub.Custom? ==> r == Published(pub, stored, [Delivered(pub.name, level, message, context, flowId)])
    ensures pub.Console? ==>
      && r.logs == Some(Append(stored, LogRecord(now, level, message, StoredContext(context))))
      && |r.events| > 0
      && r.events[|r.events| - 1] == Route(level, Format(pub.Prefix(), now, level, message, context))
  {
    match pub
    case Console(s) =>
      var step := ConsolePublish(s, stored, level, message, context, flowId, now);
      Published(Console(step.state), Some(step.logs), step.events)
    case Custom(name, _) =>
      Published(pub, stored, [Delivered(name, level, message, context, flowId)])
  }

  /** `setPrefix`: the prefix is replaced outright and nothing else changes. */
  function SetPrefix(pub: Publisher, prefix: string): (r: Publisher)
    ensures r.Prefix() == prefix
    ensures r.Console? == pub.Console?
    ensures r.Console? ==> r.state.currentFlowId == pub.state.currentFlowId
    ensures r.Custom? ==> r.name == pub.name
  {
    match pub
    case Console(s) => Console(s.(prefix := prefix))
    case Custom(name, _) => Custom(name, prefix)
  }

  /** True when `events` offer a file for download. */
  predicate Downloads(events: seq<Event>) {
    exists i :: 0 <= i < |events| && events[i].Downloaded?
  }

  /** `downloadLogs(filename)`. The console publisher reads the stored array: a
      never-written buffer makes `logs.length` throw, an empty one yields the diagnostic
      and no file, otherwise the whole array is offered. Other publishers inherit the
      base no-op. */
  function DownloadLogs(pub: Publisher, stored: Option<seq<LogRecord>>, fileName: Option<string>): (r: Outcome)
    ensures r.Threw? <==> pub.Console? && stored.None?
    ensures r.Completed? && Downloads(r.events) <==> pub.Console? && stored.Some? && stored.value != []
    ensures pub.Console? && stored == Some([]) ==> r == Completed([ConsoleError(NoLogsMessage)])
    ensures r.Completed? && Downloads(r.events) ==>
      r.events == [Downloaded(fileName.GetOr(DefaultFileName), stored.value)]
    ensures pub.Custom? ==> r == Completed([])
  {
    match pub
    case Custom(_, _) => Completed([])
    case Console(_) =>
      match stored
      case None => Threw("stored logs are null")
      case Some(logs) =>
        if |logs| == 0 then Completed([ConsoleError(NoLogsMessage)])
        else
          var events := [Downloaded(fileName.GetOr(DefaultFileName), logs)];
          assert events[0].Downloaded?;
          Completed(events)
  }
}

=== FILE: storage.dfy ===
/** `StorageAdapter`: one JSON object blob per backing store, kept under a fixed
    namespaced key; `get` and `set` read and update one member of it. The blob is
    modelled by its parsed value (`None` when nothing is stored under the key), and the
    two exported adapters, over `localStorage` and `sessionStorage`, by one blob each. */
module Storage {
  import opened Wrappers

  /** The stored object, if any. */
  type Blob<V> = Option<map<string, V>>

  /** Which exported adapter: `LocalStorage` or `SessionStorage`. */
  datatype Backend = Local | Session

  /** The blobs of the two backing stores. */
  datatype Stores<V> = Stores(local: Blob<V>, session: Blob<V>)

  /** The object `get` and `set` start from: the parsed blob, or `{}` when absent. */
  function Contents<V>(b: Blob<V>): (m: map<string, V>)
    ensures b.None? ==> m == map[]
  {
    b.GetOr(map[])
  }

  /** `get(key)`: the member `key` of the stored object; `None` is `undefined`. */
  function Get<V>(b: Blob<V>, key: string): (r: Option<V>)
    ensures b.None? ==> r.None?
    ensures r.Some? <==> b.Some? && key in b.value
    ensures r.Some? ==> r.value == b.value[key]
  {
    var m := Contents(b);
    if key in m then Some(m[key]) else None
  }

  /** `set(key, value)`: writes the object back with `key` bound to `value`, creating it
      when absent, and returns `value`. */
  function Set<V>(b: Blob<V>, key: string, value: V): (r: (Blob<V>, V))
    ensures r.1 == value
    ensures r.0.Some?
    ensures Get(r.0, key) == Some(value)
    ensures forall k :: k != key ==> Get(r.0, k) == Get(b, k)
    ensures b.None? ==> r.0 == Some(map[key := value])
    ensures r.0.value.Keys == Contents(b).Keys + {key}
  {
    (Some(Contents(b)[key := value]), value)
  }

  /** The blob of one backend. */
  function BlobOf<V>(st: Stores<V>, backend: Backend): Blob<V> {
    match backend
    case Local => st.local
    case Session => st.session
  }

  /** `get` on one of the exported adapters. */
  function GetFrom<V>(st: Stores<V>, backend: Backend, key: string): (r: Option<V>)
    ensures st == Stores(None, None) ==> r.None?
  {
    Get(BlobOf(st, backend), key)
  }

  /** `set` on one of the exported adapters: only that backend's blob changes. */
  function SetOn<V>(st: Stores<V>, backend: Backend, key: string, value: V): (r: (Stores<V>, V))
    ensures r.1 == value
    ensures GetFrom(r.0, backend, key) == Some(value)
    ensures forall k :: k != key ==> GetFrom(r.0, backend, k) == GetFrom(st, backend, k)
    ensures backend == Local ==> r.0.session == st.session
    ensures backend == Session ==> r.0.local == st.local
  {
    var (b, v) := Set(BlobOf(st, backend), key, value);
    match backend
    case Local => (st.(local := b), v)
    case Session => (st.(session := b), v)
  }

  /** Read-over-write: `get(k)` right after `set(k, v)` gives `v`; every other key reads
      as before. */
  lemma ReadOverWrite<V>(b: Blob<V>, key: string, value: V, other: string)
    ensures Get(Set(b, key, value).0, key) == Some(value)
    ensures other != key ==> Get(Set(b, key, value).0, other) == Get(b, other)
  {
  }

  /** The last write to a key wins, and repeating a write changes nothing further. */
  lemma LastWriteWins<V>(b: Blob<V>, key: string, v1: V, v2: V)
    ensures Set(Set(b, key, v1).0, key, v2).0 == Set(b, key, v2).0
    ensures Set(Set(b, key, v2).0, key, v2).0 == Set(b, key, v2).0
  {
    var m := Contents(b);
    assert Contents(Set(b, key, v1).0) == m[key := v1];
    assert m[key := v1][key := v2] == m[key := v2];
    assert Contents(Set(b, key, v2).0) == m[key := v2];
    assert m[key := v2][key := v2] == m[key := v2];
  }

  /** The two exported adapters share nothing: a `set` on one never changes a `get` on
      the other. */
  lemma BackendsIndependent<V>(st: Stores<V>, key: string, value: V, k: string)
    ensures GetFrom(SetOn(st, Local, key, value).0, Session, k) == GetFrom(st, Session, k)
    ensures GetFrom(SetOn(st, Session, key, value).0, Local, k) == GetFrom(st, Local, k)
  {
  }
}

=== FILE: wrappers.dfy ===
/** The optional-value datatype shared by the other modules. In the model it stands for
    the source's `undefined` / `null`: `None` is the absent value. */
module Wrappers {

  datatype Option<+T> = None | Some(value: T) {

    /** Returns the wrapped value, or `default` when there is none (the `x || d` idiom). */
    function GetOr(default: T): T {
      match this
      case Some(v) => v
      case None => default
    }
  }
}
